=== FILE: README.md ===
# Voting dApp — a Dafny model

This project models the voting dApp: a `Voting` contract that keeps proposals, and a
React frontend that lists them, lets an account vote or close voting, and adds new
proposals.

The contract is a ledger of proposals. Each proposal is owned by the account that created
it (its admin), starts open, accepts one vote per account while open, and can be closed,
for good, only by its admin. The contract's own Solidity text is not part of this model.
Its behaviour is taken from the contract test suite `test/Voting.ts`, which pins every
operation, every revert string and every event.

Modules:

- `Voting` (`voting.dfy`). The ledger is `seq<Proposal<A>>`; the proposal with id `i`
  sits at index `i`. Accounts are an opaque type `A` that is only compared for equality.
  Each operation is a pure function. It returns either the new ledger with the events it
  emitted, or the error it reverts with. The operations are `Deploy` (the constructor),
  `AddProposal`, `Vote`, `CloseVoting`, `GetProposal`, `GetVoters`, `HasVoted` and
  `ProposalCount`. `Valid` is the ledger invariant: ids are dense,
  `voteCount == |voters|`, and no account votes twice.
- `VotingRuns` (`voting_runs.dfy`). A transaction (`Step`) either applies in full or
  reverts and leaves the ledger unchanged. `Run` applies a sequence of transactions. The
  lemmas here hold for every sequence of calls.
- `Text` and `Display` (`text.dfy`, `display.dfy`). These model the JavaScript string
  operations the frontend uses: `substring` clamping, `trim`'s whitespace set,
  `toLowerCase` on ASCII, `includes`, and decimal number rendering. They also hold the
  shared display rules: `formatAddress`, status-banner colours and singular/plural labels.
- `ProposalCard`, `AddProposalModal`, `Page` (`proposal_card.dfy`,
  `add_proposal_modal.dfy`, `page.dfy`). These are the frontend's synchronous decisions.
- `CardLedgerLink` (`card_ledger.dfy`). It connects the card and the page to the ledger.
  The frontend sees accounts as address strings that may differ in letter case. Under
  that reading, the card offers exactly the actions the contract would accept.

Two points the tests leave open, and how the model settles them:

- **Precedence between failure checks.** No test combines two failure causes. `Vote`
  checks the id, then whether the proposal is open, then whether the caller already
  voted. `CloseVoting` checks the id, then the admin, then whether the proposal is
  already closed. So a second vote on a closed proposal reports "Voting is not open for
  this proposal", and a non-admin closing a closed proposal gets "Only admin can close
  voting". This order is the model's choice: nothing in the repository states one, and
  the single-cause outcomes do not depend on it.
- **Empty descriptions.** The ledger accepts any description, including an empty one. No
  test rejects one. Only the add-proposal form refuses blank text
  (`AddProposalModal.BeginSubmit`).

`formatAddress` has two identical copies, in `frontend/components/ProposalCard.tsx:64-66`
and `frontend/app/page.tsx:42-44`. The model defines it once, as `Display.FormatAddress`.

`getChainName` (`frontend/app/page.tsx:46-57`) is dead code in the page. Nothing calls
it, and the page takes no chain id from its wallet hook. `Page.ChainName` models the
function as written.

## Model

| member | source | states |
|---|---|---|
| Voting.Deploy | test/Voting.ts:29-70 | n initial descriptions give n proposals: ids 0..n-1, the deployer as admin, open, zero votes, no voters. Each proposal emits `ProposalCreated(i, description, deployer)` and `VotingOpened(i)`. |
| Voting.AddProposal | test/Voting.ts:73-104 | Any caller can add a proposal. The count grows by one and the new id is the old count. The proposal keeps the given description, has the caller as admin, is open with no votes, and leaves earlier proposals unchanged. Both creation events are emitted. |
| Voting.Vote | test/Voting.ts:107-167 | A vote succeeds iff the id exists, the proposal is open and the caller has not voted. Otherwise it fails with the matching error. On success the caller is appended to `voters`, `voteCount` goes up by one, no other proposal changes, and `VoteCast(caller, id)` is emitted. |
| Voting.CloseVoting | test/Voting.ts:194-233 | A close succeeds iff the id exists, the caller is the admin and the proposal is open. Otherwise it fails with "Invalid proposal ID", "Only admin can close voting" or "Voting already closed". On success only that proposal's `open` flag changes, and `VotingClosed(id)` is emitted. |
| Voting.GetProposal | test/Voting.ts:236-254 | Returns the stored proposal exactly when the id is below the count, and fails with `InvalidId` otherwise. On a valid ledger the returned id is the requested one and its count matches its voters. |
| Voting.GetVoters | test/Voting.ts:257-279 | Returns the voters in voting order exactly when the id exists, and fails with `InvalidId` otherwise. The list has `voteCount` entries. |
| Voting.HasVoted | test/Voting.ts:170-191 | Answers whether the account occurs among the proposal's voters, and fails with `InvalidId` for a missing id. |
| Voting.VoteRecordsVoter | test/Voting.ts:170-191 | `hasVoted` reports a successful vote: false for the voter before it and true after it. Every other account's answer, on this proposal and on every other, is unchanged. |
| Voting.ProposalCount | test/Voting.ts:282-291 | The count is the number of proposals created so far. On a well-formed ledger an id is in use exactly when it is below the count. |
| Voting.Reason | test/Voting.ts:129-233 | Each error has its own revert string, and each of the five strings names exactly one error. So matching a revert on its string, as the tests do, identifies the error. |
| VotingRuns.Step | test/Voting.ts:294-324 | A reverted transaction leaves the ledger unchanged, and adding a proposal never reverts. Only `addProposal` changes the count, by one. A vote or a close changes only its own proposal. Every proposal evolves only in the permitted ways, and the invariant is kept. |
| VotingRuns.RunPreservesValid | test/Voting.ts:147-155 | After any sequence of calls, ids are dense, `voteCount == |voters|` on every proposal, and no account appears twice among a proposal's voters. |
| VotingRuns.RunEvolves | test/Voting.ts:236-249 | After any sequence of calls, every proposal keeps its id, description and admin, its voters only grow at the end, and once closed it stays closed and unchanged. |
| VotingRuns.ClosedIsFinal | test/Voting.ts:326-350 | A closed proposal is identical after any sequence of calls, and no account can close it again. A vote on it by any account reverts with "Voting is not open for this proposal". For an account that already voted on it, this rests on the model's choice of check order (see Left out below). |
| VotingRuns.NoSecondVote | test/Voting.ts:129-134 | Once an account is among a proposal's voters, no later vote by it on that proposal succeeds, whatever happened in between, and the attempt leaves the ledger unchanged. |
| VotingRuns.RepeatedVoteRejected | test/Voting.ts:129-134 | Right after a successful vote, the same vote reverts with "Already voted on this proposal" and changes nothing. |
| VotingRuns.CloseThenCloseOrVoteRejected | test/Voting.ts:223-228 | After a successful close, a second close by the admin reverts with "Voting already closed". Any vote reverts with "Voting is not open for this proposal"; for an account that already voted, that follows from the model's choice of check order (see Left out below). |
| VotingRuns.CreatedIdsAreSequential | test/Voting.ts:85-91 | Over any sequence of calls, the ids in the emitted `ProposalCreated` events are exactly old count, old count + 1, ..., new count - 1, in emission order. |
| VotingRuns.VotersFollowVoteEvents | test/Voting.ts:115-127 | Over any sequence of calls, a proposal's voters are its earlier voters followed by the accounts of the `VoteCast` events emitted for it, in order. This includes proposals created during the sequence, which start with none. |
| VotingRuns.LifecycleScenario | test/Voting.ts:326-350 | The lifecycle test, started from the three proposals the suite deploys before each test (lines 13-26). The new proposal gets id 3. After two votes it has count 2 and is still open. The admin's close emits `VotingClosed(3)`, and the deployer's later vote reverts with "Voting is not open for this proposal". The voters are `[2, 3]`. |
| Display.FormatAddress | frontend/components/ProposalCard.tsx:64-66 | The result is the first min(6, n) characters of the address, then `...`, then its last min(4, n) characters, where n is the address length. Short strings are clamped as JavaScript's `substring` clamps them. |
| Display.FormatAddressOfFullAddress | frontend/app/page.tsx:42-44 | On a 42-character address the short form is `addr[..6] + "..." + addr[38..]`, which is 13 characters. |
| Display.StatusTone | frontend/components/ProposalCard.tsx:134-145 | A status that mentions `Error` anywhere, in particular one that starts with it, is red. A status with the check mark and no `E` is green, and one with neither character is blue. Conversely, red implies an `E` occurs and green implies the check mark occurs. |
| Display.StatusBanner | frontend/components/ProposalCard.tsx:134-145 | An empty status is falsy and shows no banner. Any other status is shown as it is, in its tone. |
| Display.SettledStatus | frontend/components/ProposalCard.tsx:32-37 | On success the status is the given success text. On failure it is `Error: ` followed by the reported error, so it always mentions `Error`. |
| Display.CountNoun | frontend/components/ProposalCard.tsx:122 | The singular word is used exactly when the count is 1. Otherwise the word gets an `s`. |
| Display.SettledStatusTone | frontend/components/ProposalCard.tsx:32-37 | After an action settles, the status is green exactly on success and red exactly on failure, whatever the error text. It is never empty. |
| Text.Substring | frontend/components/ProposalCard.tsx:65 | `substring` clamps both bounds to the string and swaps them when the start exceeds the end. The result is the slice between them. |
| Text.Lower | frontend/components/ProposalCard.tsx:24 | No upper-case ASCII letter is left. Every other character is kept, and each upper-case letter becomes its lower-case form. |
| Text.Trim | frontend/components/AddProposalModal.tsx:19 | The result is a slice of the input with only whitespace cut from each end, and it neither starts nor ends with whitespace. |
| Text.Contains | frontend/components/ProposalCard.tsx:137-139 | `includes`: the empty string occurs in every string, and no string contains a longer one. |
| Text.ContainsPrefix | frontend/components/ProposalCard.tsx:36-37 | A string contains every string it starts with, so `Error: ` followed by any error text mentions `Error`. |
| Text.ContainsFirstChar | frontend/components/ProposalCard.tsx:137-141 | A string that contains a non-empty string contains that string's first character. A status without `E` therefore never mentions `Error`. |
| Text.IntToDecimal | frontend/app/page.tsx:56 | `${chainId}` for an integer: non-empty, with a leading `-` exactly for negatives, and it reads back as the integer it renders. |
| Text.TrimEmptyIffAllWhitespace | frontend/components/AddProposalModal.tsx:19 | `trim()` yields the empty string exactly when every character is ECMAScript whitespace or a line terminator. |
| ProposalCard.IsAdmin | frontend/components/ProposalCard.tsx:24 | A missing account is never admin. Lower-casing either address does not change the answer, and the comparison is symmetric. |
| ProposalCard.CardControls | frontend/components/ProposalCard.tsx:149-220 | At most one of "Cast Vote", "Already Voted" and "Voting Closed" shows. None shows exactly for an open proposal with no truthy account and no has-voted mark. "Close Voting" needs an account and never appears beside "Voting Closed". |
| ProposalCard.CloseControlStable | frontend/components/ProposalCard.tsx:217 | "Close Voting" does not depend on the has-voted flag or the loading flags. Lower-casing the account or the admin address does not change it. |
| ProposalCard.BeginVote | frontend/components/ProposalCard.tsx:26-28 | Starting a vote puts the action in flight and shows "Sending transaction...", in blue. |
| ProposalCard.FinishVote | frontend/components/ProposalCard.tsx:30-40 | A settled vote ends the action. Its non-empty message is green on success, and red on failure, where it carries the reported error. |
| ProposalCard.BeginClose | frontend/components/ProposalCard.tsx:43-49 | Declining the confirmation leaves the card unchanged. Confirming puts the action in flight and shows "Closing voting...", in blue. |
| ProposalCard.FinishClose | frontend/components/ProposalCard.tsx:51-61 | A settled close ends the action. Its non-empty message is green on success, and red on failure, where it carries the reported error. |
| ProposalCard.CardMessageTones | frontend/components/ProposalCard.tsx:134-145 | The card's progress messages are classified blue. Its success messages contain the check mark and not `Error`. |
| ProposalCard.ActionInFlight | frontend/components/ProposalCard.tsx:26-49 | While a vote or a confirmed close is in flight, both buttons are disabled and a blue progress banner shows. Declining the confirmation changes nothing. |
| ProposalCard.ActionSettled | frontend/components/ProposalCard.tsx:51-61 | When an action settles, the banner is green on success and red on failure. The buttons are then disabled iff the page is loading. |
| ProposalCard.LabelsSingularIffOne | frontend/components/ProposalCard.tsx:118-130 | "Vote" and "voter" are singular exactly when their count is 1. Otherwise the plural form is used. |
| AddProposalModal.Render | frontend/components/AddProposalModal.tsx:14 | The modal renders nothing exactly when it is not open. |
| AddProposalModal.BeginSubmit | frontend/components/AddProposalModal.tsx:16-27 | A description of only whitespace is never sent: the status becomes "Please enter a description" and nothing else changes. Any other description is sent untrimmed, and the form is marked as submitting with "Creating proposal...". |
| AddProposalModal.FinishSubmit | frontend/components/AddProposalModal.tsx:29-41 | A settled submission ends the in-flight state and keeps the description. On success the status is "Proposal created successfully! ✓", shown green. On failure it is `Error: ` followed by the reported error, shown red. |
| AddProposalModal.HandleClose | frontend/components/AddProposalModal.tsx:44-50 | Closing while submitting does nothing. Otherwise it clears the description and status and calls `onClose`. |
| AddProposalModal.SubmitEnabledIffWouldSubmit | frontend/components/AddProposalModal.tsx:114 | The submit button is enabled exactly when no submission is in flight and submitting would call `onSubmit`. |
| AddProposalModal.CloseGuard | frontend/components/AddProposalModal.tsx:57-59 | Closing takes effect exactly when the close icon is enabled, and exactly when the Cancel button (lines 104-107) is enabled. |
| AddProposalModal.FormMessageTones | frontend/components/AddProposalModal.tsx:29-38 | The validation and progress messages are blue. The settled message is green on success and red on failure, and submitting ends. |
| Page.ChainNameOfFalsyId | frontend/app/page.tsx:46-47 | A null chain id and chain id 0 are both named "Unknown". |
| Page.ChainName | frontend/app/page.tsx:46-57 | "Unknown" is the name of the falsy ids, null and 0, and of no other id. A listed id gets its listed name. Any other id is named by the `Chain ID: ` prefix followed by more text. |
| Page.ChainNameOfKnownIds | frontend/app/page.tsx:48-55 | Each of the six listed chain ids gets its fixed name. |
| Page.ChainNameOfOtherId | frontend/app/page.tsx:56 | Any other non-zero id is named `Chain ID: ` followed by a decimal rendering that reads back as the id. |
| Page.ChainNameIdentifiesChain | frontend/app/page.tsx:46-57 | Distinct non-zero ids get distinct names, and no non-zero id is named "Unknown". |
| Page.CheckVotes | frontend/app/page.tsx:25-37 | With no truthy account, or with no proposals, the voted set is kept as it was. Otherwise it becomes exactly the ids of the listed proposals for which `hasVoted` answered true. |
| Page.VotedIds | frontend/app/page.tsx:29-36 | An id is in the voted set exactly when some listed proposal has that id and `hasVoted` answered true for it. |
| Page.ProposalsLabelSingularIffOne | frontend/app/page.tsx:207-208 | The label says "proposal" exactly when one proposal is listed, and "proposals" otherwise. |
| CardLedgerLink.Listing | frontend/hooks/useVotingContract.ts:46-60 | The hook lists `proposalCount()` proposals, and each `getProposal(i)` call succeeds and is rendered field by field. On a well-formed ledger the listed ids are 0, 1, ... in order, each with a count that matches its voters. |
| CardLedgerLink.LedgerHasVoted | frontend/hooks/useVotingContract.ts:137-145 | Where the contract call would revert, for an id at or above the count, the hook answers false. Otherwise it answers true exactly when some account that voted on the proposal matches the address up to case. |
| CardLedgerLink.LedgerHasVotedIsHasVoted | frontend/hooks/useVotingContract.ts:137-145 | Assume renderings identify accounts up to case. Then the hook's answer for an account's address is true exactly when the contract's `hasVoted` succeeds with true. |
| CardLedgerLink.VoteControlsMatchLedger | frontend/components/ProposalCard.tsx:149-204 | With an account connected and the has-voted flag taken from the contract's `hasVoted`, "Cast Vote" shows iff the vote would succeed. "Already Voted" shows iff it would fail with `AlreadyVoted`. "Voting Closed" shows iff it would fail with `NotOpen`, which for an account that already voted on a closed proposal rests on the model's choice of check order (see Left out below). |
| CardLedgerLink.CloseControlMatchesLedger | frontend/components/ProposalCard.tsx:217-220 | Assume renderings identify accounts up to case. Then "Close Voting" shows iff the contract would accept `closeVoting` from the connected account. |
| CardLedgerLink.VotedIdsMatchLedger | frontend/app/page.tsx:29-36 | Asking the ledger for each listed proposal, the page's voted set is exactly the set of ids the connected account has voted on. |
| CardLedgerLink.PageOffersVoteIffAccepted | frontend/app/page.tsx:289-298 | End to end: each card on the page offers "Cast Vote" exactly when the contract would accept that account's vote. |

## Left out

- The contract's Solidity source is not part of this model. Its behaviour is taken from `test/Voting.ts`.
- Wallet connection and provider events (`frontend/hooks/useWeb3.ts`) are I/O.
- Contract calls, `tx.wait`, loading and error state (`frontend/hooks/useVotingContract.ts`) are a network wrapper. Its `hasVoted` answer is a function parameter of `Page.CheckVotes`. Against the ledger, it and the proposal listing are modelled by `CardLedgerLink.LedgerHasVoted` and `CardLedgerLink.Listing`. Loading state, error messages and the refresh after each transaction are left out. Its settled outcome is `Display.ActionResult`, which always carries an error string, as the hook always supplies one.
- The deployment module (`ignition/modules/Voting.ts`) only supplies default descriptions.
- `setTimeout` status clearing, and the form's delayed reset and close after a successful submission, are timing behaviour.
- `confirm()` is modelled as the `confirmed` argument of `ProposalCard.BeginClose`.
- JSX, CSS and SVG rendering are left out, as are the "Open"/"Closed" badge and the "You" tag.
- Gas, event-log encoding and uint256 overflow are left out. Ids and counts are unbounded `nat`.
- Address checksum casing is left out. The ledger compares accounts as opaque values, and the frontend compares them after ASCII lower-casing.
- Text.Lower: it lower-cases only `A`-`Z`, not all of Unicode as `toLowerCase` does. Addresses are ASCII hex.
- Display.FormatAddress: Dafny strings are sequences of Unicode code points, while JavaScript's `length` and `substring` count UTF-16 code units. The two differ on text outside the Basic Multilingual Plane: `"\U{1F600}"` has length 1 here and 2 in JavaScript. The same holds for `Text.Substring`. Addresses are ASCII, so this does not affect them.
- Text.IntToDecimal: it renders integers only. JavaScript's rendering of fractional, very large or NaN chain ids is not modelled.
- Voting.Vote and Voting.CloseVoting: the tests do not pin the order of the checks when two failure causes hold at once, and no other text of the repository states one. The order used here is this model's choice.
- Voting.AddProposal and Voting.Deploy: the model emits `ProposalCreated` before `VotingOpened` for each proposal. The tests only check that both events occur, for `addProposal` and for the constructor, so this order is the model's choice and not pinned by them.
- A separate per-proposal set of voted accounts is not modelled. Membership in `voters` is the record of a vote.

=== FILE: add_proposal_modal.dfy ===
/**
 * The add-proposal form: its blank-description check, what it hands to the contract
 * hook, the close guard while a submission is in flight, and which of its controls
 * are disabled.
 */
module AddProposalModal {
  import opened Text
  import opened Display

  /** The form's state: the typed description, whether a submission is in flight, and
      the status message. */
  datatype Form = Form(description: string, isSubmitting: bool, status: string)

  const Cleared := Form("", false, "")

  const BlankMessage := "Please enter a description"
  const Creating := "Creating proposal..."
  const Created := "Proposal created successfully! \U{2713}"

  /** `!description.trim()`: the description is empty or whitespace only. */
  predicate IsBlank(description: string)
  {
    Trim(description) == []
  }

  /** What the modal renders. */
  datatype View =
    | Hidden
    | Visible(closeDisabled: bool, cancelDisabled: bool, textareaDisabled: bool,
              submitDisabled: bool, banner: Banner)

  function Render(isOpen: bool, f: Form): (v: View)
    ensures v.Hidden? <==> !isOpen
  {
    if !isOpen then Hidden
    else Visible(
      closeDisabled := f.isSubmitting,
      cancelDisabled := f.isSubmitting,
      textareaDisabled := f.isSubmitting,
      submitDisabled := f.isSubmitting || IsBlank(f.description),
      banner := StatusBanner(f.status))
  }

  /** Whether `handleSubmit` called `onSubmit`, and with which text. */
  datatype Submission = NotSubmitted | Submitted(description: string)

  /** `handleSubmit` up to the `onSubmit` call. A blank description is never sent: the
      form only reports it. Anything else is sent exactly as typed, untrimmed, and the
      form is marked as submitting. */
  function BeginSubmit(f: Form): (r: (Form, Submission))
    ensures r.1.NotSubmitted? <==> forall i :: 0 <= i < |f.description| ==> IsWhitespace(f.description[i])
    ensures r.1.NotSubmitted? ==> r.0 == Form(f.description, f.isSubmitting, BlankMessage)
    ensures r.1.Submitted? ==>
      && r.1.description == f.description
      && (exists i :: 0 <= i < |f.description| && !IsWhitespace(f.description[i]))
      && r.0 == Form(f.description, true, Creating)
  {
    TrimEmptyIffAllWhitespace(f.description);
    if IsBlank(f.description) then (f.(status := BlankMessage), NotSubmitted)
    else (f.(isSubmitting := true, status := Creating), Submitted(f.description))
  }

  /** `handleSubmit` after `onSubmit` settles: the submission is over, the description is
      kept, and the message is green on success and red on failure. */
  function FinishSubmit(f: Form, result: ActionResult): (g: Form)
    ensures !g.isSubmitting
    ensures g.description == f.description
    ensures g.status != ""
    ensures StatusTone(g.status) == (if result.Succeeded? then Green else Red)
    ensures result.Succeeded? ==> g.status == Created
    ensures result.Failed? ==> g.status == "Error: " + result.error
  {
    assert 'E' !in Created && Created[|Created| - 1] == CheckMark[0];
    SuccessTextFromShape(Created);
    SettledStatusTone(result, Created);
    f.(status := SettledStatus(result, Created), isSubmitting := false)
  }

  /** `handleClose`: the new form state and whether `onClose` was called. While a
      submission is in flight closing does nothing; otherwise it clears the form and
      calls `onClose`. */
  function HandleClose(f: Form): (r: (Form, bool))
    ensures f.isSubmitting ==> r == (f, false)
    ensures !f.isSubmitting ==> r.1 && r.0.description == "" && r.0.status == "" && !r.0.isSubmitting
  {
    if f.isSubmitting then (f, false) else (Cleared, true)
  }

  /** The submit button is enabled exactly when no submission is in flight and
      submitting would call `onSubmit`. */
  lemma SubmitEnabledIffWouldSubmit(f: Form)
    ensures !Render(true, f).submitDisabled <==> !f.isSubmitting && BeginSubmit(f).1.Submitted?
  {
  }

  /** Closing takes effect exactly when the Cancel button (and the close icon) is
      enabled. */
  lemma CloseGuard(f: Form)
    ensures HandleClose(f).1 <==> !Render(true, f).cancelDisabled
    ensures HandleClose(f).1 <==> !Render(true, f).closeDisabled
  {
  }

  /** The validation and progress messages are shown in blue; the settled message is
      green on success and red on failure. */
  lemma FormMessageTones(f: Form, result: ActionResult)
    ensures StatusTone(BlankMessage) == Blue
    ensures StatusTone(Creating) == Blue
    ensures StatusTone(FinishSubmit(f, result).status) == (if result.Succeeded? then Green else Red)
    ensures !FinishSubmit(f, result).isSubmitting
  {
  }
}

=== FILE: card_ledger.dfy ===
/**
 * How the frontend's decisions line up with the contract. The page lists the ledger's
 * proposals with every account rendered as an address string; renderings of the same
 * account may differ in letter case (a checksummed address against a lower-case one),
 * but two different accounts never render to strings that are equal up to case.
 *
 * Under that reading: the card offers "Cast Vote" exactly when the vote would go
 * through, "Already Voted" and "Voting Closed" exactly when it would be rejected for
 * that reason, and "Close Voting" exactly when closing would go through.
 */
module CardLedgerLink {
  import opened Wrappers
  import opened Text
  import opened Voting
  import opened ProposalCard
  import opened Page

  /** Renderings identify accounts up to letter case. */
  ghost predicate IdentifiesUpToCase<A(!new)>(render: A -> string)
  {
    forall a, b :: Lower(render(a)) == Lower(render(b)) ==> a == b
  }

  /** The record the frontend builds from `getProposal`, accounts rendered as strings. */
  function ViewOf<A>(p: Proposal<A>, render: A -> string): ProposalView
  {
    ProposalView(p.id, p.description, p.voteCount, render(p.admin), p.open,
      seq(|p.voters|, k requires 0 <= k < |p.voters| => render(p.voters[k])))
  }

  /** The hook's proposal list: `getProposal(i)` for every `i` below `proposalCount()`.
      Every one of those calls succeeds, and on a well-formed ledger the listed ids are
      `0, 1, ...` in order, each with a count that matches its voters. */
  function Listing<A>(l: Ledger<A>, render: A -> string): (r: seq<ProposalView>)
    ensures |r| == ProposalCount(l)
    ensures forall i :: 0 <= i < |r| ==> GetProposal(l, i).Success? && r[i] == ViewOf(GetProposal(l, i).value, render)
    ensures Valid(l) ==> forall i :: 0 <= i < |r| ==> r[i].id == i && r[i].voteCount == |r[i].voters|
  {
    seq(|l|, i requires 0 <= i < |l| => ViewOf(l[i], render))
  }

  /** The hook's `hasVoted(id, address)` against the ledger: the contract's answer, or
      false when the call reverts. The address is matched against the rendered voters up
      to letter case, as the contract matches the account it denotes. */
  function LedgerHasVoted<A(!new)>(l: Ledger<A>, render: A -> string, id: nat, address: string): (r: bool)
    ensures id >= ProposalCount(l) ==> !r
    ensures forall a :: HasVoted(l, id, a) == Success(true) && Lower(render(a)) == Lower(address) ==> r
    ensures r ==> exists a :: HasVoted(l, id, a) == Success(true) && Lower(render(a)) == Lower(address)
  {
    assert (id < |l| && exists k | 0 <= k < |l[id].voters| :: Lower(render(l[id].voters[k])) == Lower(address)) ==>
      exists a :: HasVoted(l, id, a) == Success(true) && Lower(render(a)) == Lower(address) by {
      if id < |l| && exists k | 0 <= k < |l[id].voters| :: Lower(render(l[id].voters[k])) == Lower(address) {
        var k :| 0 <= k < |l[id].voters| && Lower(render(l[id].voters[k])) == Lower(address);
        assert HasVoted(l, id, l[id].voters[k]) == Success(true);
      }
    }
    id < |l| && exists k | 0 <= k < |l[id].voters| :: Lower(render(l[id].voters[k])) == Lower(address)
  }

  /** The account the wallet reports is `caller`, possibly in another letter case. */
  predicate Connected<A>(account: Option<string>, caller: A, render: A -> string)
  {
    account.Some? && Lower(account.value) == Lower(render(caller))
  }

  /** Under renderings that identify accounts up to case, the hook's answer for an
      account's rendering is the contract's `hasVoted` answer for that account, and false
      where the contract call reverts. */
  lemma LedgerHasVotedIsHasVoted<A(!new)>(l: Ledger<A>, render: A -> string, id: nat, a: A)
    requires IdentifiesUpToCase(render)
    ensures LedgerHasVoted(l, render, id, render(a)) <==> HasVoted(l, id, a) == Success(true)
  {
  }

  /** With the has-voted flag agreeing with the ledger, "Cast Vote" is offered to a
      connected account exactly when its vote would be accepted; "Already Voted" and
      "Voting Closed" are shown exactly when it would be rejected for that reason. */
  lemma VoteControlsMatchLedger<A>(l: Ledger<A>, id: nat, caller: A, render: A -> string,
                                   account: Option<string>, isLoading: bool, actionLoading: bool)
    requires id < |l|
    requires Present(account)
    ensures var c := CardControls(ViewOf(l[id], render), account, HasVoted(l, id, caller) == Success(true),
                                  isLoading, actionLoading);
      && (c.castVote <==> Vote(l, id, caller).Success?)
      && (c.alreadyVoted <==> Vote(l, id, caller) == Failure(AlreadyVoted))
      && (c.votingClosed <==> Vote(l, id, caller) == Failure(NotOpen))
  {
  }

  /** For an account connected as `caller`, "Close Voting" is offered exactly when the
      contract would accept `closeVoting` from it. */
  lemma CloseControlMatchesLedger<A(!new)>(l: Ledger<A>, id: nat, caller: A, render: A -> string,
                                           account: Option<string>, hasVoted: bool,
                                           isLoading: bool, actionLoading: bool)
    requires id < |l|
    requires IdentifiesUpToCase(render)
    requires Connected(account, caller, render)
    ensures CardControls(ViewOf(l[id], render), account, hasVoted, isLoading, actionLoading).closeVoting
      <==> CloseVoting(l, id, caller).Success?
  {
  }

  /** On a well-formed ledger the page's voted set for an account connected as `caller`
      is exactly the set of proposals `caller` has voted on. */
  lemma VotedIdsMatchLedger<A(!new)>(l: Ledger<A>, render: A -> string, caller: A, account: string)
    requires Valid(l)
    requires IdentifiesUpToCase(render)
    requires Lower(account) == Lower(render(caller))
    ensures VotedIds(account, Listing(l, render), (id: nat, s: string) => LedgerHasVoted(l, render, id, s))
      == set i | 0 <= i < |l| && caller in l[i].voters
  {
    var oracle := (id: nat, s: string) => LedgerHasVoted(l, render, id, s);
    var listing := Listing(l, render);
    var lhs := VotedIds(account, listing, oracle);
    var rhs := set i | 0 <= i < |l| && caller in l[i].voters;
    forall i | 0 <= i < |l|
      ensures oracle(listing[i].id, account) <==> caller in l[i].voters
    {
      assert listing[i].id == i;
      LedgerHasVotedIsHasVoted(l, render, i, caller);
      assert LedgerHasVoted(l, render, i, account) <==> LedgerHasVoted(l, render, i, render(caller));
    }
    forall i | i in lhs ensures i in rhs {
      var j :| 0 <= j < |listing| && oracle(listing[j].id, account) && listing[j].id == i;
    }
    forall i | i in rhs ensures i in lhs {
      assert listing[i].id == i;
    }
  }

  /** End to end: on the page, with the account connected as `caller`, each card offers
      "Cast Vote" exactly when the contract would accept that vote. */
  lemma PageOffersVoteIffAccepted<A(!new)>(l: Ledger<A>, render: A -> string, caller: A, account: string,
                                           id: nat, isLoading: bool, actionLoading: bool)
    requires Valid(l)
    requires IdentifiesUpToCase(render)
    requires account != "" && Lower(account) == Lower(render(caller))
    requires id < |l|
    ensures var voted := VotedIds(account, Listing(l, render), (i: nat, s: string) => LedgerHasVoted(l, render, i, s));
      (CardControls(Listing(l, render)[id], Some(account), id in voted, isLoading, actionLoading).castVote
       <==> Vote(l, id, caller).Success?)
  {
  }
}

=== FILE: display.dfy ===
/**
 * Display helpers shared by the proposal card, the add-proposal form and the page:
 * the shortened address, the status messages shown after an action, the colour a
 * status message is shown in, and singular/plural labels.
 */
module Display {
  import opened Text

  /** `formatAddress(addr)`: the first six characters, an ellipsis, and the last four.
      Both cuts are JavaScript `substring` calls, so a short string is not an error: it
      contributes what it has to each part. */
  function FormatAddress(addr: string): (r: string)
    ensures var head := Min(6, |addr|);
      var tail := Min(4, |addr|);
      && |r| == head + 3 + tail
      && r[..head] == addr[..head]
      && r[head..head + 3] == "..."
      && r[head + 3..] == addr[|addr| - tail..]
  {
    Substring(addr, 0, 6) + "..." + Substring(addr, |addr| - 4, |addr|)
  }

  /** On a full-length address the shortened form keeps exactly the characters around
      the ellipsis: the `0x` prefix with four digits, and the last four digits. */
  lemma FormatAddressOfFullAddress(addr: string)
    requires |addr| == 42
    ensures FormatAddress(addr) == addr[..6] + "..." + addr[38..]
    ensures |FormatAddress(addr)| == 13
  {
  }

  /** The colour of a status banner. */
  datatype Tone = Red | Green | Blue

  const CheckMark: string := "\U{2713}"

  /** The colour a status message is shown in: red if the text mentions `Error`,
      otherwise green if it carries the check mark, otherwise blue. */
  function StatusTone(status: string): (t: Tone)
    ensures forall i :: OccursAt(status, "Error", i) ==> t == Red
    ensures |status| >= 5 && status[..5] == "Error" ==> t == Red
    ensures 'E' !in status && CheckMark[0] in status ==> t == Green
    ensures t == Red ==> 'E' in status
    ensures t == Green ==> CheckMark[0] in status
    ensures 'E' !in status && CheckMark[0] !in status ==> t == Blue
  {
    assert |status| >= 5 && status[..5] == "Error" ==> OccursAt(status, "Error", 0);
    assert 'E' !in status && CheckMark[0] in status ==> Contains(status, CheckMark) && !Contains(status, "Error") by {
      if 'E' !in status && CheckMark[0] in status {
        var k :| 0 <= k < |status| && status[k] == CheckMark[0];
        assert OccursAt(status, CheckMark, k);
        NoErrorWithoutE(status);
      }
    }
    if Contains(status, "Error") then
      ContainsFirstChar(status, "Error");
      Red
    else if Contains(status, CheckMark) then
      ContainsFirstChar(status, CheckMark);
      Green
    else Blue
  }

  /** The banner shown for a status message; an empty message shows no banner. */
  datatype Banner = NoBanner | Shown(text: string, tone: Tone)

  function StatusBanner(status: string): (b: Banner)
    ensures b.NoBanner? <==> status == ""
    ensures b.Shown? ==> b.text == status && b.tone == StatusTone(status)
  {
    if status == "" then NoBanner else Shown(status, StatusTone(status))
  }

  /** The settled outcome of a transaction as the contract hook reports it. */
  datatype ActionResult = Succeeded | Failed(error: string)

  /** The status text after an action settles: the given success text, or `Error: `
      followed by the reported error. */
  function SettledStatus(result: ActionResult, successText: string): (s: string)
    ensures result.Succeeded? ==> s == successText
    ensures result.Failed? ==>
      && Contains(s, "Error")
      && |s| >= 7 && s[..7] == "Error: " && s[7..] == result.error
  {
    match result
    case Succeeded => successText
    case Failed(e) =>
      ContainsPrefix("Error", ": " + e);
      assert "Error: " + e == "Error" + (": " + e);
      "Error: " + e
  }

  /** A success text that carries the check mark and does not mention `Error`. */
  predicate IsSuccessText(s: string)
  {
    Contains(s, CheckMark) && !Contains(s, "Error")
  }

  /** After an action settles, the banner is green exactly on success and red exactly on
      failure, whatever the error text says. */
  lemma SettledStatusTone(result: ActionResult, successText: string)
    requires IsSuccessText(successText)
    ensures StatusTone(SettledStatus(result, successText)) == (if result.Succeeded? then Green else Red)
    ensures SettledStatus(result, successText) != ""
  {
  }

  /** A text in which `E` does not occur does not mention `Error`. */
  lemma NoErrorWithoutE(s: string)
    requires 'E' !in s
    ensures !Contains(s, "Error")
  {
    if Contains(s, "Error") {
      ContainsFirstChar(s, "Error");
    }
  }

  /** A text that ends with the check mark contains it. */
  lemma CheckMarkAtEnd(s: string)
    requires |s| > 0 && s[|s| - 1] == CheckMark[0]
    ensures Contains(s, CheckMark)
  {
    assert OccursAt(s, CheckMark, |s| - 1);
  }

  /** A success message that ends with the check mark and has no `E` is shown in green. */
  lemma SuccessTextFromShape(s: string)
    requires |s| > 0 && s[|s| - 1] == CheckMark[0] && 'E' !in s
    ensures IsSuccessText(s)
  {
    CheckMarkAtEnd(s);
    NoErrorWithoutE(s);
  }

  /** `n === 1 ? word : word + 's'`: the singular form exactly when the count is one,
      otherwise the plural. */
  function CountNoun(n: int, word: string): (r: string)
    ensures r == word <==> n == 1
    ensures n != 1 ==> r == word + "s"
  {
    if n == 1 then word else word + "s"
  }
}

=== FILE: page.dfy ===
/**
 * The home page's own decisions: the set of proposals the connected account has voted
 * on, the proposal-count label, and the page's chain-name helper. The connected account
 * in the header is shortened with `Display.FormatAddress`.
 *
 * The chain-name helper is dead code in the page: nothing calls it, and the page does
 * not even take a chain id from the wallet hook. It is modelled as the function it
 * defines.
 */
module Page {
  import opened Wrappers
  import opened Text
  import opened Display
  import opened ProposalCard

  /** The chains the page knows by name. */
  const KnownChains: map<int, string> := map[
    1 := "Ethereum Mainnet",
    11155111 := "Sepolia Testnet",
    5 := "Goerli Testnet",
    137 := "Polygon",
    80001 := "Mumbai Testnet",
    31337 := "Hardhat Local"]

  const UnknownChain := "Unknown"
  const ChainIdPrefix := "Chain ID: "

  /** `getChainName(chainId)`: a falsy id (`null` or `0`) is unknown, a listed id has its
      name, and any other id is shown as `Chain ID: ` followed by the number. "Unknown"
      is the answer for falsy ids and for nothing else. */
  function ChainName(chainId: Option<int>): (r: string)
    ensures r == UnknownChain <==> chainId.None? || chainId.value == 0
    ensures chainId.Some? && chainId.value in KnownChains ==> r == KnownChains[chainId.value]
    ensures chainId.Some? && chainId.value != 0 && chainId.value !in KnownChains ==>
      |r| > |ChainIdPrefix| && r[..|ChainIdPrefix|] == ChainIdPrefix
  {
    if chainId.None? || chainId.value == 0 then UnknownChain
    else if chainId.value in KnownChains then
      KnownNameInitials(chainId.value);
      KnownChains[chainId.value]
    else
      var r := ChainIdPrefix + IntToDecimal(chainId.value);
      assert r[0] == 'C';
      r
  }

  lemma ChainNameOfFalsyId()
    ensures ChainName(None) == "Unknown"
    ensures ChainName(Some(0)) == "Unknown"
  {
  }

  lemma ChainNameOfKnownIds()
    ensures ChainName(Some(1)) == "Ethereum Mainnet"
    ensures ChainName(Some(11155111)) == "Sepolia Testnet"
    ensures ChainName(Some(5)) == "Goerli Testnet"
    ensures ChainName(Some(137)) == "Polygon"
    ensures ChainName(Some(80001)) == "Mumbai Testnet"
    ensures ChainName(Some(31337)) == "Hardhat Local"
  {
  }

  /** Any other non-zero id is shown as the prefix followed by a rendering that reads
      back as the id itself. */
  lemma ChainNameOfOtherId(id: int)
    requires id != 0 && id !in KnownChains
    ensures |ChainName(Some(id))| > |ChainIdPrefix|
    ensures ChainName(Some(id))[..|ChainIdPrefix|] == "Chain ID: "
    ensures ParseInt(ChainName(Some(id))[|ChainIdPrefix|..]) == id
  {
    var r := ChainName(Some(id));
    assert r[|ChainIdPrefix|..] == IntToDecimal(id);
  }

  /** The first character of every known chain name. */
  lemma KnownNameInitials(id: int)
    requires id in KnownChains
    ensures |KnownChains[id]| > 0
    ensures KnownChains[id][0] in {'E', 'S', 'G', 'P', 'M', 'H'}
  {
  }

  /** The name shown identifies the chain: two non-zero ids with the same name are the
      same id, and only a falsy id is called "Unknown". */
  lemma ChainNameIdentifiesChain(a: int, b: int)
    requires a != 0 && b != 0
    ensures ChainName(Some(a)) == ChainName(Some(b)) ==> a == b
    ensures ChainName(Some(a)) != UnknownChain
  {
    if a in KnownChains {
      KnownNameInitials(a);
    } else {
      ChainNameOfOtherId(a);
    }
    if b in KnownChains {
      KnownNameInitials(b);
    } else {
      ChainNameOfOtherId(b);
    }
  }

  /** The ids of the listed proposals for which `hasVoted(id, account)` answered true. */
  function VotedIds(account: string, proposals: seq<ProposalView>, hasVoted: (nat, string) -> bool): (r: set<nat>)
    ensures forall id :: id in r <==>
      exists i :: 0 <= i < |proposals| && proposals[i].id == id && hasVoted(id, account)
  {
    set i | 0 <= i < |proposals| && hasVoted(proposals[i].id, account) :: proposals[i].id
  }

  /** `checkVotes`: with no connected account or no proposals the current set is kept;
      otherwise it is replaced by the ids of the listed proposals the account has voted
      on, asking `hasVoted` once per proposal in list order. */
  method CheckVotes(account: Option<string>, proposals: seq<ProposalView>,
                    hasVoted: (nat, string) -> bool, current: set<nat>) returns (voted: set<nat>)
    ensures !Present(account) || |proposals| == 0 ==> voted == current
    ensures Present(account) && |proposals| > 0 ==>
      forall id :: id in voted <==>
        exists i :: 0 <= i < |proposals| && proposals[i].id == id && hasVoted(id, account.value)
    ensures Present(account) && |proposals| > 0 ==> voted == VotedIds(account.value, proposals, hasVoted)
  {
    if !Present(account) || |proposals| == 0 {
      return current;
    }
    var acc := account.value;
    voted := {};
    var k := 0;
    while k < |proposals|
      invariant 0 <= k <= |proposals|
      invariant voted == VotedIds(acc, proposals[..k], hasVoted)
    {
      var id := proposals[k].id;
      if hasVoted(id, acc) {
        voted := voted + {id};
      }
      assert proposals[..k + 1] == proposals[..k] + [proposals[k]];
      k := k + 1;
    }
    assert proposals[..k] == proposals;
  }

  /** The header label: "proposal" exactly when one proposal is listed. */
  function ProposalsLabel(proposals: seq<ProposalView>): string
  {
    CountNoun(|proposals|, "proposal")
  }

  lemma ProposalsLabelSingularIffOne(proposals: seq<ProposalView>)
    ensures ProposalsLabel(proposals) == "proposal" <==> |proposals| == 1
    ensures ProposalsLabel(proposals) == "proposals" <==> |proposals| != 1
  {
  }
}

=== FILE: proposal_card.dfy ===
/**
 * The proposal card: which of the "Cast Vote" button, the "Already Voted" and "Voting
 * Closed" indicators and the "Close Voting" button it shows, when its buttons are
 * disabled, and the status messages it shows around a vote or a close.
 */
module ProposalCard {
  import opened Wrappers
  import opened Text
  import opened Display

  /** The record the frontend builds from a `getProposal` result; addresses are the
      strings the wallet library returns. */
  datatype ProposalView = ProposalView(
    id: nat,
    description: string,
    voteCount: nat,
    admin: string,
    open: bool,
    voters: seq<string>)

  /** JavaScript truthiness of `account: string | null`: `null` and `""` are falsy. */
  predicate Present(account: Option<string>)
  {
    account.Some? && account.value != ""
  }

  /** `isAdmin`: the connected account equals the proposal's admin once both are
      lower-cased; with no account (`undefined === ...`) it is false. Re-casing either
      address does not change the answer, and the comparison is symmetric. */
  predicate IsAdmin(account: Option<string>, admin: string): (b: bool)
    ensures b ==> account.Some?
    ensures account.Some? ==> (b <==> SameIgnoringCase(Lower(account.value), admin))
    ensures account.Some? ==> (b <==> SameIgnoringCase(Lower(admin), account.value))
  {
    if account.None? then false
    else
      LowerIdempotent(account.value);
      LowerIdempotent(admin);
      SameIgnoringCase(account.value, admin)
  }

  /** What the card's action row shows. */
  datatype Controls = Controls(
    castVote: bool,
    alreadyVoted: bool,
    votingClosed: bool,
    closeVoting: bool,
    buttonsDisabled: bool)

  /** The card's action row for a proposal, the connected account, the page's
      has-voted flag for this proposal, the page's loading flag and the card's own
      in-flight flag. At most one of "Cast Vote", "Already Voted" and "Voting Closed" is
      shown, and nothing is shown only for an open proposal that a visitor without an
      account is not marked as having voted on. "Close Voting" never appears beside
      "Voting Closed". */
  function CardControls(p: ProposalView, account: Option<string>, hasVoted: bool,
                        isLoading: bool, actionLoading: bool): (c: Controls)
    ensures !(c.castVote && c.alreadyVoted)
    ensures !(c.castVote && c.votingClosed)
    ensures !(c.alreadyVoted && c.votingClosed)
    ensures (!c.castVote && !c.alreadyVoted && !c.votingClosed) <==> p.open && !hasVoted && !Present(account)
    ensures c.closeVoting ==> account.Some? && !c.votingClosed
  {
    Controls(
      castVote := p.open && Present(account) && !hasVoted,
      alreadyVoted := p.open && hasVoted,
      votingClosed := !p.open,
      closeVoting := IsAdmin(account, p.admin) && p.open,
      buttonsDisabled := actionLoading || isLoading)
  }

  /** Whether "Close Voting" is shown does not depend on the has-voted flag or on either
      loading flag, and lower-casing the connected account or the admin address does not
      change it. */
  lemma CloseControlStable(p: ProposalView, account: string, hasVoted: bool, isLoading: bool,
                           actionLoading: bool, hasVoted': bool, isLoading': bool, actionLoading': bool)
    ensures CardControls(p, Some(account), hasVoted, isLoading, actionLoading).closeVoting
      == CardControls(p, Some(Lower(account)), hasVoted', isLoading', actionLoading').closeVoting
    ensures CardControls(p, Some(account), hasVoted, isLoading, actionLoading).closeVoting
      == CardControls(p.(admin := Lower(p.admin)), Some(account), hasVoted', isLoading', actionLoading').closeVoting
  {
  }

  /** The card's own state: its status message and whether its action is in flight. */
  datatype CardState = CardState(txStatus: string, actionLoading: bool)

  const VotePending := "Sending transaction..."
  const VoteDone := "Vote submitted successfully! \U{2713}"
  const ClosePending := "Closing voting..."
  const CloseDone := "Voting closed successfully! \U{2713}"

  /** `handleVote` up to the transaction: the action is in flight and a progress
      message, shown in blue, is displayed. */
  function BeginVote(s: CardState): (t: CardState)
    ensures t.actionLoading
    ensures t.txStatus == VotePending && StatusTone(t.txStatus) == Blue
  {
    assert 'E' !in VotePending && CheckMark[0] !in VotePending;
    CardState(VotePending, true)
  }

  /** `handleVote` after the transaction settles: the action is over and the message is
      green on success and red, with the reported error, on failure. */
  function FinishVote(s: CardState, result: ActionResult): (t: CardState)
    ensures !t.actionLoading
    ensures t.txStatus != ""
    ensures StatusTone(t.txStatus) == (if result.Succeeded? then Green else Red)
    ensures result.Failed? ==> |t.txStatus| >= 7 && t.txStatus[7..] == result.error
  {
    assert 'E' !in VoteDone && VoteDone[|VoteDone| - 1] == CheckMark[0];
    SuccessTextFromShape(VoteDone);
    SettledStatusTone(result, VoteDone);
    CardState(SettledStatus(result, VoteDone), false)
  }

  /** `handleClose` up to the transaction; declining the confirmation dialog changes
      nothing, confirming puts the action in flight with a blue progress message. */
  function BeginClose(s: CardState, confirmed: bool): (t: CardState)
    ensures !confirmed ==> t == s
    ensures confirmed ==> t.actionLoading && t.txStatus == ClosePending && StatusTone(t.txStatus) == Blue
  {
    assert 'E' !in ClosePending && CheckMark[0] !in ClosePending;
    if confirmed then CardState(ClosePending, true) else s
  }

  /** `handleClose` after the transaction settles: the action is over and the message is
      green on success and red, with the reported error, on failure. */
  function FinishClose(s: CardState, result: ActionResult): (t: CardState)
    ensures !t.actionLoading
    ensures t.txStatus != ""
    ensures StatusTone(t.txStatus) == (if result.Succeeded? then Green else Red)
    ensures result.Failed? ==> |t.txStatus| >= 7 && t.txStatus[7..] == result.error
  {
    assert 'E' !in CloseDone && CloseDone[|CloseDone| - 1] == CheckMark[0];
    SuccessTextFromShape(CloseDone);
    SettledStatusTone(result, CloseDone);
    CardState(SettledStatus(result, CloseDone), false)
  }

  /** The card's progress messages are blue and its success messages green. */
  lemma CardMessageTones()
    ensures StatusTone(VotePending) == Blue
    ensures StatusTone(ClosePending) == Blue
    ensures IsSuccessText(VoteDone)
    ensures IsSuccessText(CloseDone)
  {
    assert 'E' !in VotePending && CheckMark[0] !in VotePending;
    assert 'E' !in ClosePending && CheckMark[0] !in ClosePending;
    assert 'E' !in VoteDone && VoteDone[|VoteDone| - 1] == CheckMark[0];
    SuccessTextFromShape(VoteDone);
    assert 'E' !in CloseDone && CloseDone[|CloseDone| - 1] == CheckMark[0];
    SuccessTextFromShape(CloseDone);
  }

  /** While a vote or a confirmed close is in flight both buttons are disabled and the
      blue progress banner is shown; declining the confirmation changes nothing. */
  lemma ActionInFlight(p: ProposalView, account: Option<string>, hasVoted: bool, isLoading: bool,
                       s: CardState, confirmed: bool)
    ensures var v := BeginVote(s);
      && CardControls(p, account, hasVoted, isLoading, v.actionLoading).buttonsDisabled
      && StatusBanner(v.txStatus) == Shown(VotePending, Blue)
    ensures confirmed ==>
      var c := BeginClose(s, confirmed);
      && CardControls(p, account, hasVoted, isLoading, c.actionLoading).buttonsDisabled
      && StatusBanner(c.txStatus) == Shown(ClosePending, Blue)
    ensures !confirmed ==> BeginClose(s, confirmed) == s
  {
  }

  /** When a vote or a close settles the banner is green on success and red on failure,
      and the buttons are enabled again unless the page is loading. */
  lemma ActionSettled(p: ProposalView, account: Option<string>, hasVoted: bool, isLoading: bool,
                      s: CardState, result: ActionResult)
    ensures var f := FinishVote(s, result);
      && StatusBanner(f.txStatus).Shown?
      && StatusBanner(f.txStatus).tone == (if result.Succeeded? then Green else Red)
      && (CardControls(p, account, hasVoted, isLoading, f.actionLoading).buttonsDisabled <==> isLoading)
    ensures var f := FinishClose(s, result);
      && StatusBanner(f.txStatus).Shown?
      && StatusBanner(f.txStatus).tone == (if result.Succeeded? then Green else Red)
      && (CardControls(p, account, hasVoted, isLoading, f.actionLoading).buttonsDisabled <==> isLoading)
  {
  }

  /** The labels under the tally: "Vote" and "voter" are singular exactly when the
      respective count is one. */
  function VotesLabel(p: ProposalView): string
  {
    CountNoun(p.voteCount, "Vote")
  }

  function VotersLabel(p: ProposalView): string
  {
    CountNoun(|p.voters|, "voter")
  }

  lemma LabelsSingularIffOne(p: ProposalView)
    ensures VotesLabel(p) == "Vote" <==> p.voteCount == 1
    ensures VotesLabel(p) == "Votes" <==> p.voteCount != 1
    ensures VotersLabel(p) == "voter" <==> |p.voters| == 1
    ensures VotersLabel(p) == "voters" <==> |p.voters| != 1
  {
  }
}

=== FILE: text.dfy ===
/**
 * The JavaScript string primitives the frontend relies on: `substring`, `trim`,
 * `toLowerCase` (on the ASCII letters an address is written with), `includes`, and the
 * decimal rendering of an integer in a template literal.
 */
module Text {

  /** `s.substring(start, end)`: both bounds are clamped to `[0, |s|]` and swapped when
      the start exceeds the end. */
  function Substring(s: string, start: int, end: int): (r: string)
    ensures var lo := Clamp(Min(start, end), |s|);
      var hi := Clamp(Max(start, end), |s|);
      lo <= hi && r == s[lo..hi]
  {
    var a := Clamp(start, |s|);
    var b := Clamp(end, |s|);
    if a <= b then s[a..b] else s[b..a]
  }

  function Clamp(i: int, len: nat): (r: nat)
    ensures r <= len
  {
    if i < 0 then 0 else if i > len then len else i
  }

  function Min(a: int, b: int): int { if a <= b then a else b }

  function Max(a: int, b: int): int { if a <= b then b else a }

  predicate IsUpper(c: char)
  {
    'A' <= c <= 'Z'
  }

  /** Lower-casing of one character; only `A`..`Z` are affected. */
  function LowerChar(c: char): char
  {
    if IsUpper(c) then (c as int + 32) as char else c
  }

  /** `s.toLowerCase()` on ASCII text: no upper-case letter is left, every other
      character is kept, and each upper-case letter becomes the letter 32 code points
      above it. */
  function Lower(s: string): (r: string)
    ensures |r| == |s|
    ensures forall i :: 0 <= i < |s| ==> r[i] == LowerChar(s[i])
    ensures forall i :: 0 <= i < |s| ==> !IsUpper(r[i])
    ensures forall i :: 0 <= i < |s| && !IsUpper(s[i]) ==> r[i] == s[i]
    ensures forall i :: 0 <= i < |s| && IsUpper(s[i]) ==> r[i] as int == s[i] as int + 32
  {
    seq(|s|, i requires 0 <= i < |s| => LowerChar(s[i]))
  }

  /** Lower-casing twice is lower-casing once. */
  lemma LowerIdempotent(s: string)
    ensures Lower(Lower(s)) == Lower(s)
  {
  }

  /** Equality of two strings after lower-casing both: `a.toLowerCase() === b.toLowerCase()`. */
  predicate SameIgnoringCase(a: string, b: string)
  {
    Lower(a) == Lower(b)
  }

  /** The characters `String.prototype.trim` removes: the ECMAScript WhiteSpace and
      LineTerminator code points. */
  predicate IsWhitespace(c: char)
  {
    var n := c as int;
    || 0x09 <= n <= 0x0D
    || n == 0x20 || n == 0xA0 || n == 0x1680
    || 0x2000 <= n <= 0x200A
    || n == 0x2028 || n == 0x2029 || n == 0x202F || n == 0x205F
    || n == 0x3000 || n == 0xFEFF
  }

  ghost predicate AllWhitespace(s: string)
  {
    forall i :: 0 <= i < |s| ==> IsWhitespace(s[i])
  }

  /** The number of whitespace characters at the start of `s`. */
  function LeadingWhitespace(s: string): (n: nat)
    ensures n <= |s|
    ensures AllWhitespace(s[..n])
    ensures n < |s| ==> !IsWhitespace(s[n])
  {
    if |s| > 0 && IsWhitespace(s[0]) then
      var n := 1 + LeadingWhitespace(s[1..]);
      assert s[..n] == [s[0]] + s[1..][..n - 1];
      n
    else 0
  }

  /** The number of whitespace characters at the end of `s`. */
  function TrailingWhitespace(s: string): (n: nat)
    ensures n <= |s|
    ensures AllWhitespace(s[|s| - n..])
    ensures n < |s| ==> !IsWhitespace(s[|s| - n - 1])
  {
    if |s| > 0 && IsWhitespace(s[|s| - 1]) then
      var m := TrailingWhitespace(s[..|s| - 1]);
      WhitespaceSuffixGrows(s, m);
      m + 1
    else 0
  }

  /** A whitespace run at the end of `s` without its last character, followed by a
      whitespace last character, is a whitespace run one longer at the end of `s`. */
  lemma WhitespaceSuffixGrows(s: string, m: nat)
    requires 0 < |s| && m <= |s| - 1
    requires AllWhitespace(s[..|s| - 1][|s| - 1 - m..]) && IsWhitespace(s[|s| - 1])
    ensures AllWhitespace(s[|s| - (m + 1)..])
  {
    var t := s[|s| - (m + 1)..];
    forall i | 0 <= i < |t|
      ensures IsWhitespace(t[i])
    {
      if i < m {
        assert t[i] == s[..|s| - 1][|s| - 1 - m..][i];
      }
    }
  }

  /** `s.trim()`: `s` without its leading and trailing whitespace. */
  function Trim(s: string): (r: string)
    ensures exists i, j :: 0 <= i <= j <= |s| && r == s[i..j] && AllWhitespace(s[..i]) && AllWhitespace(s[j..])
    ensures r != [] ==> !IsWhitespace(r[0]) && !IsWhitespace(r[|r| - 1])
  {
    var i := LeadingWhitespace(s);
    var rest := s[i..];
    var j := i + |rest| - TrailingWhitespace(rest);
    assert rest[|rest| - TrailingWhitespace(rest)..] == s[j..];
    s[i..j]
  }

  /** A string trims to nothing exactly when every character of it is whitespace:
      `!s.trim()` holds for the empty string and for whitespace-only strings. */
  lemma TrimEmptyIffAllWhitespace(s: string)
    ensures Trim(s) == [] <==> AllWhitespace(s)
  {
  }

  /** `sub` occurs in `s` starting at index `i`. */
  predicate OccursAt(s: string, sub: string, i: int)
  {
    0 <= i <= |s| - |sub| && s[i..i + |sub|] == sub
  }

  /** `s.includes(sub)`: the empty string occurs in every string, and no string contains
      a longer one. */
  predicate Contains(s: string, sub: string): (b: bool)
    ensures sub == [] ==> b
    ensures b ==> |sub| <= |s|
  {
    assert sub == [] ==> OccursAt(s, sub, 0);
    exists i | 0 <= i <= |s| :: OccursAt(s, sub, i)
  }

  /** A string contains every string it starts with. */
  lemma ContainsPrefix(prefix: string, rest: string)
    ensures Contains(prefix + rest, prefix)
  {
    assert OccursAt(prefix + rest, prefix, 0);
  }

  /** A string that contains a non-empty string contains its first character. */
  lemma ContainsFirstChar(s: string, sub: string)
    requires |sub| > 0 && Contains(s, sub)
    ensures sub[0] in s
  {
  }

  function DigitChar(d: nat): (c: char)
    requires d < 10
    ensures '0' <= c <= '9'
  {
    ('0' as int + d) as char
  }

  function DigitValue(c: char): nat
  {
    if '0' <= c <= '9' then c as int - '0' as int else 0
  }

  /** The decimal digits of `n`, most significant first, with no leading zero. */
  function NatToDecimal(n: nat): (r: string)
    ensures |r| > 0
    ensures forall k :: 0 <= k < |r| ==> '0' <= r[k] <= '9'
    ensures |r| > 1 ==> r[0] != '0'
    decreases n
  {
    if n < 10 then [DigitChar(n)] else NatToDecimal(n / 10) + [DigitChar(n % 10)]
  }

  /** `${i}` for an integer `i`: a minus sign for negatives, then the digits. The
      rendering determines the integer: reading it back gives `i`. */
  function IntToDecimal(i: int): (r: string)
    ensures |r| > 0
    ensures i < 0 <==> r[0] == '-'
    ensures ParseInt(r) == i
  {
    if i < 0 then
      var r := "-" + NatToDecimal(-i);
      DecimalRoundTrip(-i);
      assert r[1..] == NatToDecimal(-i);
      r
    else
      DecimalRoundTrip(i);
      NatToDecimal(i)
  }

  /** The value of a string of decimal digits. */
  function DecimalValue(s: string): nat
  {
    if s == [] then 0 else 10 * DecimalValue(s[..|s| - 1]) + DigitValue(s[|s| - 1])
  }

  /** Reading back an integer from its decimal rendering. */
  function ParseInt(s: string): int
  {
    if |s| > 0 && s[0] == '-' then -(DecimalValue(s[1..]) as int) else DecimalValue(s)
  }

  lemma {:induction false} DecimalRoundTrip(n: nat)
    ensures DecimalValue(NatToDecimal(n)) == n
    decreases n
  {
    if n >= 10 {
      var s := NatToDecimal(n);
      assert s[..|s| - 1] == NatToDecimal(n / 10);
      DecimalRoundTrip(n / 10);
    }
  }
}

=== FILE: voting.dfy ===
/**
 * The Voting contract: a ledger of proposals, each created by an account that becomes
 * its admin, voted on at most once per account while open, and closed by its admin.
 *
 * Accounts are an opaque type `A` compared only for equality, as the contract compares
 * addresses. Every mutating operation is a pure function from a ledger to either the
 * new ledger with the events it emits, or the error it reverts with.
 */
module Voting {
  import opened Wrappers

  /** One proposal as returned by `getProposal`. */
  datatype Proposal<A> = Proposal(
    id: nat,
    description: string,
    voteCount: nat,
    admin: A,
    open: bool,
    voters: seq<A>)

  /** The contract's storage: the proposals, where the proposal with id `i` sits at index `i`. */
  type Ledger<A> = seq<Proposal<A>>

  /** The events the contract emits. */
  datatype Event<A> =
    | ProposalCreated(id: nat, description: string, admin: A)
    | VotingOpened(id: nat)
    | VoteCast(voter: A, id: nat)
    | VotingClosed(id: nat)

  /** The reasons a call reverts with. */
  datatype Err = InvalidId | NotOpen | AlreadyVoted | NotAdmin | AlreadyClosed

  /** The revert string of each error, as the contract's callers observe it. Each string
      names exactly one error, so matching a revert on its string, as the tests do, is
      matching it on the error. */
  function Reason(e: Err): (s: string)
    ensures s == "Invalid proposal ID" <==> e == InvalidId
    ensures s == "Voting is not open for this proposal" <==> e == NotOpen
    ensures s == "Already voted on this proposal" <==> e == AlreadyVoted
    ensures s == "Only admin can close voting" <==> e == NotAdmin
    ensures s == "Voting already closed" <==> e == AlreadyClosed
  {
    match e
    case InvalidId => "Invalid proposal ID"
    case NotOpen => "Voting is not open for this proposal"
    case AlreadyVoted => "Already voted on this proposal"
    case NotAdmin => "Only admin can close voting"
    case AlreadyClosed => "Voting already closed"
  }

  ghost predicate NoDuplicates<A>(s: seq<A>)
  {
    forall i, j :: 0 <= i < j < |s| ==> s[i] != s[j]
  }

  /** The per-proposal invariant: its id is its index, its count is its number of voters,
      and no account appears twice among its voters. */
  ghost predicate ProposalValid<A>(p: Proposal<A>, index: nat)
  {
    && p.id == index
    && p.voteCount == |p.voters|
    && NoDuplicates(p.voters)
  }

  /** The ledger invariant: ids are exactly `0 .. |l| - 1` and every proposal is well formed. */
  ghost predicate Valid<A>(l: Ledger<A>)
  {
    forall i :: 0 <= i < |l| ==> ProposalValid(l[i], i)
  }

  /** A proposal as it is when first created: open, with no votes. */
  function Fresh<A>(id: nat, description: string, admin: A): Proposal<A>
  {
    Proposal(id, description, 0, admin, true, [])
  }

  /** `addProposal(description)` called by `caller`: anyone may add a proposal, and the
      call never reverts. */
  function AddProposal<A>(l: Ledger<A>, description: string, caller: A): (r: (Ledger<A>, seq<Event<A>>))
    ensures |r.0| == |l| + 1
    ensures r.0[..|l|] == l
    ensures var p := r.0[|l|];
      && p.id == |l|
      && p.description == description
      && p.admin == caller
      && p.open
      && p.voteCount == 0
      && p.voters == []
    ensures ProposalCreated(|l|, description, caller) in r.1
    ensures VotingOpened(|l|) in r.1
    ensures |r.1| == 2
    ensures Valid(l) ==> Valid(r.0)
  {
    (l + [Fresh(|l|, description, caller)],
     [ProposalCreated(|l|, description, caller), VotingOpened(|l|)])
  }

  /** `vote(id)` called by `caller`. The checks are made in the order: the id exists,
      the proposal is open, the caller has not voted on it yet. */
  function Vote<A(==)>(l: Ledger<A>, id: nat, caller: A): (r: Result<(Ledger<A>, seq<Event<A>>), Err>)
    ensures r.Success? <==> id < |l| && l[id].open && caller !in l[id].voters
    ensures id >= |l| ==> r == Failure(InvalidId)
    ensures id < |l| && !l[id].open ==> r == Failure(NotOpen)
    ensures id < |l| && l[id].open && caller in l[id].voters ==> r == Failure(AlreadyVoted)
    ensures r.Success? ==>
      var (l', events) := r.value;
      && |l'| == |l|
      && (forall j :: 0 <= j < |l| && j != id ==> l'[j] == l[j])
      && l'[id].voters == l[id].voters + [caller]
      && l'[id].voteCount == l[id].voteCount + 1
      && l'[id].id == l[id].id
      && l'[id].description == l[id].description
      && l'[id].admin == l[id].admin
      && l'[id].open
      && events == [VoteCast(caller, id)]
    ensures r.Success? && Valid(l) ==> Valid(r.value.0)
  {
    if id >= |l| then Failure(InvalidId)
    else if !l[id].open then Failure(NotOpen)
    else if caller in l[id].voters then Failure(AlreadyVoted)
    else
      var p := l[id];
      var p' := p.(voteCount := p.voteCount + 1, voters := p.voters + [caller]);
      Success((l[id := p'], [VoteCast(caller, id)]))
  }

  /** `closeVoting(id)` called by `caller`. The checks are made in the order: the id
      exists, the caller is the proposal's admin, the proposal is still open. */
  function CloseVoting<A(==)>(l: Ledger<A>, id: nat, caller: A): (r: Result<(Ledger<A>, seq<Event<A>>), Err>)
    ensures r.Success? <==> id < |l| && caller == l[id].admin && l[id].open
    ensures id >= |l| ==> r == Failure(InvalidId)
    ensures id < |l| && caller != l[id].admin ==> r == Failure(NotAdmin)
    ensures id < |l| && caller == l[id].admin && !l[id].open ==> r == Failure(AlreadyClosed)
    ensures r.Success? ==>
      var (l', events) := r.value;
      && |l'| == |l|
      && (forall j :: 0 <= j < |l| && j != id ==> l'[j] == l[j])
      && !l'[id].open
      && l'[id] == l[id].(open := false)
      && events == [VotingClosed(id)]
    ensures r.Success? && Valid(l) ==> Valid(r.value.0)
  {
    if id >= |l| then Failure(InvalidId)
    else if caller != l[id].admin then Failure(NotAdmin)
    else if !l[id].open then Failure(AlreadyClosed)
    else Success((l[id := l[id].(open := false)], [VotingClosed(id)]))
  }

  /** Some stored proposal carries `id`. */
  ghost predicate HasId<A>(l: Ledger<A>, id: nat)
  {
    exists i :: 0 <= i < |l| && l[i].id == id
  }

  /** `proposalCount()`: the number of proposals created so far. On a well-formed ledger
      the ids in use are exactly those below the count. */
  function ProposalCount<A>(l: Ledger<A>): (n: nat)
    ensures n == |l|
    ensures Valid(l) ==> forall id: nat :: HasId(l, id) <==> id < n
  {
    assert Valid(l) ==> forall id: nat | id < |l| :: HasId(l, id) by {
      if Valid(l) {
        forall id: nat | id < |l|
          ensures HasId(l, id)
        {
          assert ProposalValid(l[id], id);
        }
      }
    }
    |l|
  }

  /** `getProposal(id)`. */
  function GetProposal<A>(l: Ledger<A>, id: nat): (r: Result<Proposal<A>, Err>)
    ensures r.Success? <==> id < ProposalCount(l)
    ensures r.Failure? ==> r.error == InvalidId
    ensures r.Success? ==> r.value == l[id]
    ensures r.Success? && Valid(l) ==> r.value.id == id && r.value.voteCount == |r.value.voters|
  {
    if id < |l| then Success(l[id]) else Failure(InvalidId)
  }

  /** `getVoters(id)`: the accounts that voted on the proposal, in voting order. */
  function GetVoters<A>(l: Ledger<A>, id: nat): (r: Result<seq<A>, Err>)
    ensures r.Success? <==> id < ProposalCount(l)
    ensures r.Failure? ==> r.error == InvalidId
    ensures r.Success? ==> r.value == l[id].voters
    ensures r.Success? && Valid(l) ==> |r.value| == l[id].voteCount
  {
    if id < |l| then Success(l[id].voters) else Failure(InvalidId)
  }

  /** `hasVoted(id, account)`. */
  function HasVoted<A(==)>(l: Ledger<A>, id: nat, account: A): (r: Result<bool, Err>)
    ensures r.Success? <==> id < ProposalCount(l)
    ensures r.Failure? ==> r.error == InvalidId
    ensures r.Success? ==> (r.value <==> exists k :: 0 <= k < |l[id].voters| && l[id].voters[k] == account)
  {
    if id < |l| then Success(account in l[id].voters) else Failure(InvalidId)
  }

  /** A successful vote is what `hasVoted` reports: before it the voter had not voted on
      the proposal, after it the voter has, and every other account's answer, on this and
      on every other proposal, is unchanged. */
  lemma VoteRecordsVoter<A>(l: Ledger<A>, id: nat, who: A)
    requires Vote(l, id, who).Success?
    ensures HasVoted(l, id, who) == Success(false)
    ensures var l' := Vote(l, id, who).value.0;
      && HasVoted(l', id, who) == Success(true)
      && (forall a :: a != who ==> HasVoted(l', id, a) == HasVoted(l, id, a))
      && (forall j: nat, a :: j != id ==> HasVoted(l', j, a) == HasVoted(l, j, a))
  {
  }

  /** The contract's constructor: one proposal per initial description, each administered
      by the deployer, in the order given. */
  method Deploy<A>(descriptions: seq<string>, deployer: A) returns (l: Ledger<A>, events: seq<Event<A>>)
    ensures |l| == |descriptions|
    ensures Valid(l)
    ensures forall i :: 0 <= i < |l| ==>
      && l[i].description == descriptions[i]
      && l[i].admin == deployer
      && l[i].open
      && l[i].voteCount == 0
      && l[i].voters == []
    ensures |events| == 2 * |descriptions|
    ensures forall i :: 0 <= i < |descriptions| ==>
      && ProposalCreated(i, descriptions[i], deployer) == events[2 * i]
      && VotingOpened(i) == events[2 * i + 1]
  {
    l, events := [], [];
    var i := 0;
    while i < |descriptions|
      invariant 0 <= i <= |descriptions|
      invariant |l| == i
      invariant Valid(l)
      invariant forall k :: 0 <= k < i ==> l[k] == Fresh(k, descriptions[k], deployer)
      invariant |events| == 2 * i
      invariant forall k :: 0 <= k < i ==>
        && ProposalCreated(k, descriptions[k], deployer) == events[2 * k]
        && VotingOpened(k) == events[2 * k + 1]
    {
      var (l', emitted) := AddProposal(l, descriptions[i], deployer);
      l, events := l', events + emitted;
      i := i + 1;
    }
  }
}

=== FILE: voting_runs.dfy ===
/**
 * Sequences of transactions against the Voting contract. A transaction either applies
 * in full and emits its events, or reverts and leaves the ledger exactly as it was.
 * The lemmas here state what holds after any sequence of calls: the ledger invariant,
 * dense sequential ids, append-only voters, immutable admins and descriptions, and
 * closing being final.
 */
module VotingRuns {
  import opened Wrappers
  import opened Voting

  /** A mutating call together with the account that sends it. */
  datatype Call<A> =
    | AddProposalCall(description: string, caller: A)
    | VoteCall(id: nat, caller: A)
    | CloseVotingCall(id: nat, caller: A)

  /** What a sender observes once the transaction is mined. */
  datatype Receipt<A> = Emitted(events: seq<Event<A>>) | Reverted(error: Err)

  /** The proposal a call acts on, if it acts on an existing one. */
  predicate Targets<A>(c: Call<A>, j: nat)
  {
    !c.AddProposalCall? && c.id == j
  }

  /** How a proposal may change over time: id, description and admin never change,
      voters only grow at the end, an open flag never comes back once cleared, and a
      closed proposal never changes at all. */
  ghost predicate Evolves<A>(p: Proposal<A>, q: Proposal<A>)
  {
    && q.id == p.id
    && q.description == p.description
    && q.admin == p.admin
    && |p.voters| <= |q.voters|
    && q.voters[..|p.voters|] == p.voters
    && (q.open ==> p.open)
    && (!p.open ==> q == p)
  }

  function Commit<A>(l: Ledger<A>, r: Result<(Ledger<A>, seq<Event<A>>), Err>): (Ledger<A>, Receipt<A>)
  {
    match r
    case Success((l', events)) => (l', Emitted(events))
    case Failure(e) => (l, Reverted(e))
  }

  /** One transaction. */
  function Step<A(==)>(l: Ledger<A>, c: Call<A>): (r: (Ledger<A>, Receipt<A>))
    ensures r.1.Reverted? ==> r.0 == l
    ensures c.AddProposalCall? ==> r.1.Emitted?
    ensures |r.0| == |l| + (if c.AddProposalCall? then 1 else 0)
    ensures forall j :: 0 <= j < |l| && !Targets(c, j) ==> r.0[j] == l[j]
    ensures forall j :: 0 <= j < |l| ==> Evolves(l[j], r.0[j])
    ensures Valid(l) ==> Valid(r.0)
  {
    match c
    case AddProposalCall(d, who) =>
      var (l', events) := AddProposal(l, d, who);
      (l', Emitted(events))
    case VoteCall(id, who) => Commit(l, Vote(l, id, who))
    case CloseVotingCall(id, who) => Commit(l, CloseVoting(l, id, who))
  }

  /** A sequence of transactions, applied in order. */
  function Run<A(==)>(l: Ledger<A>, calls: seq<Call<A>>): (r: (Ledger<A>, seq<Receipt<A>>))
    ensures |r.1| == |calls|
    ensures |l| <= |r.0|
    decreases |calls|
  {
    if calls == [] then (l, [])
    else
      var (l1, receipt) := Step(l, calls[0]);
      var (l2, receipts) := Run(l1, calls[1..]);
      (l2, [receipt] + receipts)
  }

  lemma {:induction false} RunPreservesValid<A>(l: Ledger<A>, calls: seq<Call<A>>)
    requires Valid(l)
    ensures Valid(Run(l, calls).0)
    decreases |calls|
  {
    if calls != [] {
      RunPreservesValid(Step(l, calls[0]).0, calls[1..]);
    }
  }

  lemma EvolvesTransitive<A>(p: Proposal<A>, q: Proposal<A>, s: Proposal<A>)
    requires Evolves(p, q) && Evolves(q, s)
    ensures Evolves(p, s)
  {
  }

  /** Every proposal that exists before a sequence of calls still exists after it, and
      has only evolved in the permitted ways. */
  lemma {:induction false} RunEvolves<A>(l: Ledger<A>, calls: seq<Call<A>>)
    ensures forall j :: 0 <= j < |l| ==> Evolves(l[j], Run(l, calls).0[j])
    decreases |calls|
  {
    if calls != [] {
      var l1 := Step(l, calls[0]).0;
      RunEvolves(l1, calls[1..]);
      forall j | 0 <= j < |l|
        ensures Evolves(l[j], Run(l, calls).0[j])
      {
        EvolvesTransitive(l[j], l1[j], Run(l1, calls[1..]).0[j]);
      }
    }
  }

  /** Closing is final: after any sequence of calls a closed proposal is unchanged, a
      vote on it by any account reverts with "Voting is not open for this proposal", and
      no account can close it again. */
  lemma ClosedIsFinal<A>(l: Ledger<A>, calls: seq<Call<A>>, id: nat, voter: A)
    requires id < |l| && !l[id].open
    ensures id < |Run(l, calls).0|
    ensures Run(l, calls).0[id] == l[id]
    ensures Vote(Run(l, calls).0, id, voter) == Failure(NotOpen)
    ensures CloseVoting(Run(l, calls).0, id, voter).Failure?
  {
    RunEvolves(l, calls);
  }

  /** An account that has voted on a proposal can never vote on it again, whatever
      happens in between. */
  lemma {:induction false} NoSecondVote<A>(l: Ledger<A>, calls: seq<Call<A>>, id: nat, who: A)
    requires id < |l| && who in l[id].voters
    ensures Vote(Run(l, calls).0, id, who).Failure?
    ensures Step(Run(l, calls).0, VoteCall(id, who)).0 == Run(l, calls).0
  {
    RunEvolves(l, calls);
    var p := Run(l, calls).0[id];
    var k :| 0 <= k < |l[id].voters| && l[id].voters[k] == who;
    assert p.voters[k] == who;
  }

  /** A successful vote followed by the same vote: the repeat reverts with
      "Already voted on this proposal" and changes nothing. */
  lemma RepeatedVoteRejected<A>(l: Ledger<A>, id: nat, who: A)
    requires Vote(l, id, who).Success?
    ensures var l1 := Vote(l, id, who).value.0;
      && Vote(l1, id, who) == Failure(AlreadyVoted)
      && Reason(Vote(l1, id, who).error) == "Already voted on this proposal"
      && Step(l1, VoteCall(id, who)) == (l1, Reverted(AlreadyVoted))
  {
  }

  /** A successful close followed by a second close by the admin reverts with
      "Voting already closed"; a vote after the close reverts with
      "Voting is not open for this proposal". */
  lemma CloseThenCloseOrVoteRejected<A>(l: Ledger<A>, id: nat, admin: A, voter: A)
    requires CloseVoting(l, id, admin).Success?
    ensures var l1 := CloseVoting(l, id, admin).value.0;
      && CloseVoting(l1, id, admin) == Failure(AlreadyClosed)
      && Reason(CloseVoting(l1, id, admin).error) == "Voting already closed"
      && Vote(l1, id, voter) == Failure(NotOpen)
      && Reason(Vote(l1, id, voter).error) == "Voting is not open for this proposal"
  {
  }

  /** The ids in the `ProposalCreated` events of a list of events, in emission order. */
  function CreatedIn<A>(events: seq<Event<A>>): seq<nat>
  {
    if events == [] then []
    else (if events[0].ProposalCreated? then [events[0].id] else []) + CreatedIn(events[1..])
  }

  /** The ids in the `ProposalCreated` events of a list of receipts, in emission order. */
  function CreatedIds<A>(receipts: seq<Receipt<A>>): seq<nat>
  {
    if receipts == [] then []
    else (if receipts[0].Emitted? then CreatedIn(receipts[0].events) else []) + CreatedIds(receipts[1..])
  }

  /** The accounts in the `VoteCast` events for proposal `id`, in emission order. */
  function VotesIn<A>(events: seq<Event<A>>, id: nat): seq<A>
  {
    if events == [] then []
    else (if events[0].VoteCast? && events[0].id == id then [events[0].voter] else []) + VotesIn(events[1..], id)
  }

  function VotesCast<A>(receipts: seq<Receipt<A>>, id: nat): seq<A>
  {
    if receipts == [] then []
    else (if receipts[0].Emitted? then VotesIn(receipts[0].events, id) else []) + VotesCast(receipts[1..], id)
  }

  /** The integers `lo, lo + 1, ..., hi - 1`. */
  function Range(lo: nat, hi: nat): (r: seq<nat>)
    requires lo <= hi
    ensures |r| == hi - lo
    ensures forall k :: 0 <= k < |r| ==> r[k] == lo + k
  {
    seq(hi - lo, k requires 0 <= k < hi - lo => lo + k)
  }

  lemma StepCreatedIds<A>(l: Ledger<A>, c: Call<A>)
    ensures var (l1, rc) := Step(l, c);
      (if rc.Emitted? then CreatedIn(rc.events) else []) == Range(|l|, |l1|)
  {
    var (l1, rc) := Step(l, c);
    match c
    case AddProposalCall(d, who) =>
      assert rc.events == [ProposalCreated(|l|, d, who), VotingOpened(|l|)];
      assert CreatedIn(rc.events[1..]) == [];
    case VoteCall(id, who) =>
      if rc.Emitted? {
        assert rc.events == [VoteCast(who, id)];
        assert CreatedIn(rc.events[1..]) == [];
      }
    case CloseVotingCall(id, who) =>
      if rc.Emitted? {
        assert rc.events == [VotingClosed(id)];
        assert CreatedIn(rc.events[1..]) == [];
      }
  }

  /** Proposal ids are handed out sequentially: over any sequence of calls the created
      ids, in emission order, are exactly the new indices of the ledger. */
  lemma {:induction false} CreatedIdsAreSequential<A>(l: Ledger<A>, calls: seq<Call<A>>)
    ensures CreatedIds(Run(l, calls).1) == Range(|l|, |Run(l, calls).0|)
    decreases |calls|
  {
    if calls != [] {
      var (l1, rc) := Step(l, calls[0]);
      var (l2, rcs) := Run(l1, calls[1..]);
      StepCreatedIds(l, calls[0]);
      CreatedIdsAreSequential(l1, calls[1..]);
      CreatedIdsCons(rc, rcs);
      RangeSplit(|l|, |l1|, |l2|);
    }
  }

  lemma CreatedIdsCons<A>(rc: Receipt<A>, rcs: seq<Receipt<A>>)
    ensures CreatedIds([rc] + rcs) == (if rc.Emitted? then CreatedIn(rc.events) else []) + CreatedIds(rcs)
  {
    assert ([rc] + rcs)[1..] == rcs;
  }

  lemma RangeSplit(lo: nat, mid: nat, hi: nat)
    requires lo <= mid <= hi
    ensures Range(lo, mid) + Range(mid, hi) == Range(lo, hi)
  {
  }

  /** The voters recorded for `id`, or none when no proposal has that id yet. */
  function VotersOf<A>(l: Ledger<A>, id: nat): seq<A>
  {
    if id < |l| then l[id].voters else []
  }

  lemma StepVotesCast<A>(l: Ledger<A>, c: Call<A>, id: nat)
    ensures var (l1, rc) := Step(l, c);
      VotersOf(l1, id) == VotersOf(l, id) + (if rc.Emitted? then VotesIn(rc.events, id) else [])
  {
    var (l1, rc) := Step(l, c);
    match c
    case AddProposalCall(d, who) =>
      assert rc.events == [ProposalCreated(|l|, d, who), VotingOpened(|l|)];
      assert VotesIn(rc.events[1..], id) == [];
    case VoteCall(vid, who) =>
      if rc.Emitted? {
        assert rc.events == [VoteCast(who, vid)];
        assert VotesIn(rc.events[1..], id) == [];
      }
    case CloseVotingCall(cid, who) =>
      if rc.Emitted? {
        assert rc.events == [VotingClosed(cid)];
        assert VotesIn(rc.events[1..], id) == [];
      }
  }

  /** The event log accounts for every vote: after a sequence of calls, the voters of
      proposal `id` are its voters before, followed by the `VoteCast` accounts for it, in
      order. This holds for proposals created during the sequence too, which start with
      no voters, and a vote on an id not yet created reverts and emits nothing. */
  lemma {:induction false} VotersFollowVoteEvents<A>(l: Ledger<A>, calls: seq<Call<A>>, id: nat)
    ensures VotersOf(Run(l, calls).0, id) == VotersOf(l, id) + VotesCast(Run(l, calls).1, id)
    decreases |calls|
  {
    if calls != [] {
      var (l1, rc) := Step(l, calls[0]);
      var (l2, rcs) := Run(l1, calls[1..]);
      StepVotesCast(l, calls[0], id);
      VotersFollowVoteEvents(l1, calls[1..], id);
      assert ([rc] + rcs)[1..] == rcs;
    }
  }

  /** The ledger the contract tests start from: three proposals deployed by account 0. */
  function Deployed(): Ledger<int>
  {
    [Fresh(0, "Proposal 1: Increase budget", 0),
     Fresh(1, "Proposal 2: Hire new staff", 0),
     Fresh(2, "Proposal 3: Upgrade equipment", 0)]
  }

  /** The lifecycle scenario, from the three deployed proposals: account 1 creates
      proposal 3, accounts 2 and 3 vote on it, after which it has two votes and is still
      open; account 1 closes it, and a vote by the deployer is then rejected. */
  lemma LifecycleScenario()
    ensures var (l1, r1) := Run(Deployed(), [
        AddProposalCall("Test proposal", 1),
        VoteCall(3, 2),
        VoteCall(3, 3)]);
      && |l1| == 4
      && r1[0] == Emitted([ProposalCreated(3, "Test proposal", 1), VotingOpened(3)])
      && l1[3].voteCount == 2
      && l1[3].open
      && var (l2, r2) := Run(l1, [CloseVotingCall(3, 1), VoteCall(3, 0)]);
      && r2[0] == Emitted([VotingClosed(3)])
      && !l2[3].open
      && r2[1] == Reverted(NotOpen)
      && Reason(r2[1].error) == "Voting is not open for this proposal"
      && l2[3].voters == [2, 3]
  {
  }
}

=== FILE: wrappers.dfy ===
/** Optional values and success/failure results shared by the ledger and the frontend. */
module Wrappers {

  /** A value that may be absent: a JavaScript `null`, or a missing map entry. */
  datatype Option<+T> = None | Some(value: T)

  /** The outcome of an operation that either succeeds with a value or fails with an error. */
  datatype Result<+T, +E> = Success(value: T) | Failure(error: E)
}
